=== FILE: README.md ===
# Query router and Genie text extraction — a Dafny model

This project models the two pieces of decision logic in a small multi-agent
analytics assistant. The assistant routes a natural-language question to a
Sales agent, a Customer agent or both. Each agent forwards the question to a
Databricks Genie space and turns the reply into plain text.

- **Query router** (`process_query` in `coordinator_agent.py`). The question
  is lower-cased and searched, by plain substring containment, for each
  schema column of the two domains. Sales has `date`, `product`, `category`,
  `revenue` and `region`. Customer has `customer_id`, `segment`,
  `lifetime_value`, `churn_risk` and `region`. Each matched domain gets a
  direct-match task ("Answer this …-related question: "). When nothing
  matches, both domains get a fallback task ("Analyze this query from a …
  perspective: "). Sales always comes first. Every description is the
  prefix, then the original question, then a line feed, then the fixed
  protocol instruction.
- **Reply extraction** (`_extract_genie_text` in `genie_tools.py`). The text
  is built from the non-empty content and then the text of each attachment
  of type "text", each piece followed by a line feed. The result is stripped
  at both ends. An empty result becomes the notice
  "No response extracted. Check space setup.". The two tools
  `query_sales_genie` and `query_customer_genie` pass the question unchanged
  to the Genie service, each with its own space id.

Files:

- `wrappers.dfy`: `Option`, which stands for a Python attribute that may be
  missing or `None`.
- `text.dfy`: ASCII `str.lower()`, string containment (`k in s`) and
  `str.strip()`. Each has an independent characterisation: case-insensitive
  equality, occurrence at an index, and whitespace margins.
- `router.dfy`: `Domain`, `Task` and `CrewPlan` (agent set plus task list),
  and `ProcessQuery`.
- `router_properties.dfy`: the router's properties, proved for all questions,
  plus a few concrete questions.
- `genie.dfy`: `Attachment`, `Message`, `ExtractGenieText` and the two tools.
  The Genie service is a function parameter `ask(spaceId, question)`.
- `genie_properties.dfy`: the extraction properties.

`_extract_genie_text` calls `strip()`, which trims whitespace at both ends
(genie_tools.py:34); the model does the same.

## Model

| member | source | states |
|---|---|---|
| Text.Lower | coordinator_agent.py:28 | the lower-cased question has the same length, and each character is that character lower-cased (ASCII letters only) |
| Text.LowerIdentifiesCaseVariants | coordinator_agent.py:28 | two strings lower-case to the same string exactly when they differ only in the case of ASCII letters |
| Text.Contains | coordinator_agent.py:33-34 | `col in query_lower` holds exactly when the column occurs as a contiguous run at some index of the lower-cased question |
| Text.Strip | genie_tools.py:34 | `strip()` returns a slice that has only whitespace around it in the input and does not begin or end with whitespace; it is empty exactly when the input is all whitespace |
| Text.StripUnique | genie_tools.py:34 | that characterisation of the stripped string determines it uniquely |
| Text.StripAppendSpace | genie_tools.py:29-34 | line feeds or other whitespace appended to the text do not change what `strip()` returns |
| Router.Involves | coordinator_agent.py:33-34 | `any(col in query_lower for col in COLUMNS)` holds exactly when some column of the domain occurs in the lower-cased question |
| Router.ProcessQuery | coordinator_agent.py:25-73 | the task list has one or two tasks; the agent set equals the set of the tasks' agents; Sales precedes Customer; with a column match, a domain has an agent exactly when it is mentioned and all tasks use the direct template around the original question; with no match, both agents get fallback-template tasks |
| Router.Assemble | coordinator_agent.py:37-73 | for given relevance flags: one or two tasks, the agent set matches the tasks, Sales first, direct tasks for exactly the flagged domains, or both fallback tasks when no flag is set |
| RouterProperties.DirectIsNotFallback | coordinator_agent.py:39-67 | no task description fits both the direct-match template and the fallback template |
| RouterProperties.DomainSelectedIff | coordinator_agent.py:22-73 | a domain's agent is used exactly when the domain is mentioned or neither is; a domain has a direct-match task exactly when one of its columns occurs in the lower-cased question |
| RouterProperties.RegionSelectsBoth | coordinator_agent.py:22-56 | a question containing "region" gets direct tasks for Sales then Customer, because "region" is a column of both domains |
| RouterProperties.BothMentioned | coordinator_agent.py:37-56 | when both domains are mentioned, the plan is the Sales direct task followed by the Customer direct task |
| RouterProperties.SalesOnly | coordinator_agent.py:37-45 | a question that mentions only sales columns yields one task for the sales agent, with the exact "Answer this sales-related question: " description and its expected output |
| RouterProperties.CustomerOnly | coordinator_agent.py:48-56 | a question that mentions only customer columns yields one task for the customer agent, with the exact "Answer this customer-related question: " description |
| RouterProperties.NoMatchAsksBoth | coordinator_agent.py:59-73 | a question that mentions no column yields the sales fallback task and then the customer fallback task, with the exact "Analyze this query from a … perspective: " descriptions, and both agents |
| RouterProperties.EmptyQueryAsksBoth | coordinator_agent.py:33-73 | the empty question takes the fallback: both agents, both fallback tasks |
| RouterProperties.WhitespaceQueryAsksBoth | coordinator_agent.py:28-73 | a question of whitespace only also takes the fallback, since every column begins with a non-whitespace character: both agents, both fallback tasks around the question as given |
| RouterProperties.FallbackWordingIff | coordinator_agent.py:39-67 | a task uses the fallback wording exactly when no column is mentioned; direct-match tasks never use it |
| RouterProperties.CaseVariantsMentionAlike | coordinator_agent.py:28-34 | questions that differ only in letter case mention the same domains |
| RouterProperties.CaseVariantsSelectAlike | coordinator_agent.py:28-73 | questions that differ only in letter case get the same agents in the same order, and each pair of corresponding tasks is either direct-match for both or fallback for both, each built around its own, un-lowered question |
| RouterProperties.FallbackShapesAlike | coordinator_agent.py:59-73 | the fallback plans of any two questions use the same agents, the same order and the fallback template |
| RouterProperties.DirectShapesAlike | coordinator_agent.py:37-56 | for the same relevance flags, the direct plans of any two questions use the same agents, the same order and the direct template |
| RouterProperties.LowerKeepsLowercaseWord | coordinator_agent.py:28 | a lower-case column found in the question is found at the same index of the lower-cased question |
| RouterProperties.UpdateMentionsDate | coordinator_agent.py:22-44 | "update" contains "date", so it selects the sales agent with a direct task first: matching is containment, not word matching |
| RouterProperties.ProductivityMentionsProduct | coordinator_agent.py:22-44 | "productivity" contains "product", so it selects the sales agent with a direct task first |
| RouterProperties.SalesByRegionAsksBoth | app.py:51 | the UI's sales example "What were Q3 sales by region?" selects both agents |
| RouterProperties.MissingCharNotFound | coordinator_agent.py:33-34 | a column containing a character that the text lacks is never found in it |
| RouterProperties.SegmentQueryAsksCustomer | app.py:52 | the UI's customer example "Which segment has highest churn?" yields exactly one customer direct-match task and only the customer agent: "segment" is found, "churn" alone does not match the column "churn_risk", and no sales column occurs |
| GenieTools.AttachmentTexts | genie_tools.py:31-32 | the collected texts are at most one per attachment, and a string is among them exactly when some attachment of type "text" carries it as its text |
| GenieTools.AppendAttachmentTexts | genie_tools.py:30-33 | the attachment loop appends the texts of the "text" attachments that carry text, in list order, each followed by a line feed |
| GenieTools.CollectText | genie_tools.py:27-33 | the accumulated text is the non-empty content and a line feed, then the attachment lines |
| GenieTools.ExtractGenieText | genie_tools.py:25-34 | the result is never empty and has no whitespace at either end; it is the notice when the accumulated text is all whitespace, and otherwise the accumulated text with its whitespace ends cut off |
| GenieTools.QuerySalesGenie | genie_tools.py:5-13 | the sales tool returns the non-empty, trimmed text extracted from the reply to the unchanged question in the sales space |
| GenieTools.QueryCustomerGenie | genie_tools.py:15-23 | the customer tool returns the non-empty, trimmed text extracted from the reply to the unchanged question in the customer space |
| GenieProperties.AttachmentTextsAppend | genie_tools.py:31-33 | the texts collected from two attachment lists in sequence are the texts of the first, then those of the second |
| GenieProperties.NonTextAttachmentIgnored | genie_tools.py:32 | an attachment without type "text" or without text changes nothing, wherever it sits in the list |
| GenieProperties.TextAttachmentInPlace | genie_tools.py:31-33 | a text attachment's text appears between the texts of the attachments before it and those after it |
| GenieProperties.StripOfTrimmed | genie_tools.py:34 | `strip()` leaves a string that starts and ends with non-whitespace unchanged |
| GenieProperties.NoTextGivesNotice | genie_tools.py:27-34 | missing or whitespace-only content and no text attachment give exactly the notice |
| GenieProperties.EmptyMessageGivesNotice | genie_tools.py:27-34 | a reply with missing or empty content and no attachments gives exactly the notice |
| GenieProperties.ContentOnly | genie_tools.py:28-34 | content that is not all whitespace, with no text attachment, is returned stripped |
| GenieProperties.ContentThenAttachment | genie_tools.py:28-34 | content followed by one text attachment reads as the content, a line feed, then the attachment text (content not starting, text not ending, with whitespace) |
| GenieProperties.SalesToolAsksSalesSpace | genie_tools.py:9-12 | the sales tool's answer depends on the service only through its reply to (sales space id, question) |
| GenieProperties.CustomerToolAsksCustomerSpace | genie_tools.py:19-22 | the customer tool's answer depends on the service only through its reply to (customer space id, question) |
| GenieProperties.ToolsDifferOnlyInSpace | genie_tools.py:9-22 | the customer tool is the sales tool with the customer space id in place of the sales one |

## Left out

- Running the crew (`Crew(...)` and `crew.kickoff()`, coordinator_agent.py:76-85): sequential execution by an external framework and a language model. How it aggregates answers, and how errors propagate from it, cannot be seen in the code. The model stops at the agent set and task list handed to the crew.
- The Genie service call (`w.genie.start_conversation_and_wait`): a network call. It is the parameter `ask(spaceId, question)`, a total function. A failing call raises straight out of `query_sales_genie` and `query_customer_genie` (genie_tools.py:9-12 and 19-22 have no `try`); the model does not represent that failure.
- The space ids and the workspace client (config.py): read from environment variables. They are the parameter `SpaceIds`.
- The agents' role, goal, backstory, model and tool list (sales_agent.py, customer_agent.py): configuration of an external framework. An agent is its `Domain` tag.
- The web UI and the command-line loop (app.py, main.py): input, output and display state.
- The `isinstance` asserts (genie_tools.py:8, 18): Dafny's types already make the question a string.
- An attachment whose `text` attribute is `None`: Python raises a `TypeError` there. The model uses an absent text (`None`), which contributes nothing.
- Text.Lower: lower-cases ASCII letters only. Python's `str.lower()` also folds non-ASCII letters, and for a few of them the length changes. This can change routing: Python lower-cases U+212A KELVIN SIGN to ASCII `k`, so "CHURN_RIS\u212A" selects Customer in Python, while the model leaves the sign unchanged and that question falls back to both agents.
- Text.Strip: trims ASCII whitespace only, meaning characters 9-13 and 28-32. Python's `str.strip()` also trims Unicode whitespace such as U+0085 and U+00A0.
- The contents of the protocol instruction: `Router.GenieInstruction` holds its literal text, but no property depends on it.

=== FILE: genie.dfy ===
/** genie_tools.py: the two tools that send a question to a Genie space and
    turn the reply message into plain text. The Genie service itself is a
    parameter, `ask(spaceId, question)`, and is not modelled. */
module GenieTools {
  import opened Wrappers
  import opened Text

  /** One attachment of a reply. A missing `type` or `text` attribute is
      `None`. */
  datatype Attachment = Attachment(kind: Option<string>, text: Option<string>)

  /** A reply message: optional content and an optional attachment list. */
  datatype Message = Message(content: Option<string>, attachments: Option<seq<Attachment>>)

  /** The space identifiers read from the environment at start-up. */
  datatype SpaceIds = SpaceIds(sales: string, customer: string)

  /** The answer given when a reply carries no text at all. */
  const NoResponse: string := "No response extracted. Check space setup."

  // ---------------------------------------------------------------------------
  // Reference description of the collected text
  // ---------------------------------------------------------------------------

  /** An attachment of type "text" that carries a text. */
  predicate IsTextAttachment(a: Attachment) {
    a.kind == Some("text") && a.text.Some?
  }

  /** The texts of the text attachments, in list order. */
  function AttachmentTexts(atts: seq<Attachment>): (r: seq<string>)
    ensures |r| <= |atts|
    ensures forall t :: t in r <==> exists a :: a in atts && IsTextAttachment(a) && a.text.value == t
  {
    if atts == [] then []
    else (if IsTextAttachment(atts[0]) then [atts[0].text.value] else []) + AttachmentTexts(atts[1..])
  }

  /** Each part followed by a line feed, all concatenated. */
  function Lines(parts: seq<string>): string {
    if parts == [] then "" else parts[0] + "\n" + Lines(parts[1..])
  }

  /** `message.attachments or []`. */
  function AttachmentsOf(m: Message): seq<Attachment> {
    m.attachments.GetOr([])
  }

  /** The content lines: the content and a line feed, when the content is
      present and non-empty. */
  function ContentLines(m: Message): string {
    if m.content.Some? && m.content.value != "" then m.content.value + "\n" else ""
  }

  // ---------------------------------------------------------------------------
  // _extract_genie_text
  // ---------------------------------------------------------------------------

  /** The loop over the attachments: `text` grows by each text attachment's
      text and a line feed. */
  function AppendAttachmentTexts(text: string, atts: seq<Attachment>): (r: string)
    ensures r == text + Lines(AttachmentTexts(atts))
    decreases atts
  {
    if atts == [] then text
    else
      var a := atts[0];
      var step := if IsTextAttachment(a) then text + a.text.value + "\n" else text;
      var rest := AttachmentTexts(atts[1..]);
      assert step + Lines(rest) == text + Lines(AttachmentTexts(atts)) by {
        if IsTextAttachment(a) {
          var t := a.text.value;
          assert AttachmentTexts(atts) == [t] + rest;
          assert ([t] + rest)[1..] == rest;
          assert Lines([t] + rest) == t + "\n" + Lines(rest);
          assert text + t + "\n" + Lines(rest) == text + (t + "\n" + Lines(rest));
        } else {
          assert AttachmentTexts(atts) == [] + rest == rest;
        }
      }
      AppendAttachmentTexts(step, atts[1..])
  }

  /** The text accumulated before stripping: content first, then each text
      attachment in order, every piece followed by a line feed. */
  function CollectText(m: Message): (r: string)
    ensures r == ContentLines(m) + Lines(AttachmentTexts(AttachmentsOf(m)))
  {
    AppendAttachmentTexts(ContentLines(m), AttachmentsOf(m))
  }

  /** `_extract_genie_text`: the stripped collected text, or the fixed
      notice when that is empty. */
  function ExtractGenieText(m: Message): (r: string)
    ensures r != []
    ensures Trimmed(r)
    ensures AllSpace(CollectText(m)) ==> r == NoResponse
    ensures !AllSpace(CollectText(m)) ==> IsStripOf(r, CollectText(m))
  {
    var stripped := Strip(CollectText(m));
    if stripped == "" then NoResponse else stripped
  }

  // ---------------------------------------------------------------------------
  // The two tools
  // ---------------------------------------------------------------------------

  /** `query_sales_genie`: asks the sales space the question as given and
      returns the extracted text, which is never empty. */
  function QuerySalesGenie(ask: (string, string) -> Message, spaces: SpaceIds, question: string): (r: string)
    ensures r != [] && Trimmed(r)
    ensures r == ExtractGenieText(ask(spaces.sales, question))
  {
    ExtractGenieText(ask(spaces.sales, question))
  }

  /** `query_customer_genie`: asks the customer space the question as given
      and returns the extracted text, which is never empty. */
  function QueryCustomerGenie(ask: (string, string) -> Message, spaces: SpaceIds, question: string): (r: string)
    ensures r != [] && Trimmed(r)
    ensures r == ExtractGenieText(ask(spaces.customer, question))
  {
    ExtractGenieText(ask(spaces.customer, question))
  }
}

=== FILE: genie_properties.dfy ===
/** Properties of the Genie reply extraction and of the two tools. */
module GenieProperties {
  import opened Wrappers
  import opened Text
  import opened GenieTools

  /** Text attachments are collected list by list: the texts of a
      concatenation are the texts of each part, in order. */
  lemma {:induction false} AttachmentTextsAppend(xs: seq<Attachment>, ys: seq<Attachment>)
    ensures AttachmentTexts(xs + ys) == AttachmentTexts(xs) + AttachmentTexts(ys)
  {
    if xs == [] {
      assert xs + ys == ys;
    } else {
      var head := if IsTextAttachment(xs[0]) then [xs[0].text.value] else [];
      assert (xs + ys)[0] == xs[0];
      assert (xs + ys)[1..] == xs[1..] + ys;
      assert AttachmentTexts(xs + ys) == head + AttachmentTexts(xs[1..] + ys);
      AttachmentTextsAppend(xs[1..], ys);
      assert head + (AttachmentTexts(xs[1..]) + AttachmentTexts(ys))
          == (head + AttachmentTexts(xs[1..])) + AttachmentTexts(ys);
    }
  }

  /** An attachment that is not of type "text", or carries no text, adds
      nothing wherever it sits in the list. */
  lemma NonTextAttachmentIgnored(
    content: Option<string>, pre: seq<Attachment>, a: Attachment, post: seq<Attachment>)
    requires !IsTextAttachment(a)
    ensures ExtractGenieText(Message(content, Some(pre + [a] + post)))
         == ExtractGenieText(Message(content, Some(pre + post)))
  {
    var m1 := Message(content, Some(pre + [a] + post));
    var m2 := Message(content, Some(pre + post));
    assert AttachmentTexts(pre + [a] + post) == AttachmentTexts(pre + post) by {
      AttachmentTextsAppend(pre + [a], post);
      AttachmentTextsAppend(pre, [a]);
      AttachmentTextsAppend(pre, post);
      assert AttachmentTexts([a]) == [];
    }
    assert CollectText(m1) == CollectText(m2);
  }

  /** A text attachment contributes its text exactly at its place in the
      list, after everything before it and before everything after it. */
  lemma TextAttachmentInPlace(pre: seq<Attachment>, a: Attachment, post: seq<Attachment>)
    requires IsTextAttachment(a)
    ensures AttachmentTexts(pre + [a] + post)
         == AttachmentTexts(pre) + [a.text.value] + AttachmentTexts(post)
  {
    AttachmentTextsAppend(pre + [a], post);
    AttachmentTextsAppend(pre, [a]);
    assert AttachmentTexts([a]) == [a.text.value] + AttachmentTexts([]);
  }

  /** A string that starts and ends with non-whitespace is its own strip. */
  lemma StripOfTrimmed(s: string)
    requires Trimmed(s)
    ensures Strip(s) == s
  {
    assert s[0..0 + |s|] == s && s[..0] == [] && s[|s|..] == [];
    assert StrippedAt(s, s, 0);
    StripUnique(s, Strip(s), s);
  }

  /** A line feed after whitespace-only text is still whitespace only. */
  lemma SpaceLineIsSpace(c: string)
    requires AllSpace(c)
    ensures AllSpace(c + "\n")
  {
    forall i | 0 <= i < |c + "\n"|
      ensures IsSpace((c + "\n")[i])
    {
      if i < |c| {
        assert (c + "\n")[i] == c[i];
      }
    }
  }

  /** With no content, or whitespace-only content, and no text attachment,
      the answer is the fixed notice. */
  lemma NoTextGivesNotice(m: Message)
    requires m.content.None? || AllSpace(m.content.value)
    requires AttachmentTexts(AttachmentsOf(m)) == []
    ensures ExtractGenieText(m) == NoResponse
  {
    if m.content.Some? && m.content.value != "" {
      SpaceLineIsSpace(m.content.value);
      assert CollectText(m) == m.content.value + "\n" + "";
    }
  }

  /** A message with neither content nor attachments is answered with the
      fixed notice, whether the fields are missing or empty. */
  lemma EmptyMessageGivesNotice()
    ensures ExtractGenieText(Message(None, None)) == NoResponse
    ensures ExtractGenieText(Message(Some(""), Some([]))) == NoResponse
  {
    NoTextGivesNotice(Message(None, None));
    NoTextGivesNotice(Message(Some(""), Some([])));
  }

  /** With content that is not all whitespace and no text attachment, the
      answer is the content stripped. */
  lemma ContentOnly(m: Message)
    requires m.content.Some? && !AllSpace(m.content.value)
    requires AttachmentTexts(AttachmentsOf(m)) == []
    ensures ExtractGenieText(m) == Strip(m.content.value)
  {
    var c := m.content.value;
    assert CollectText(m) == c + "\n" + "";
    assert c + "\n" + "" == c + "\n";
    assert AllSpace("\n");
    StripAppendSpace(c, "\n");
  }

  /** Content followed by one text attachment reads as the content, a line
      feed, then the attachment text, when the content does not start and the
      text does not end with whitespace. */
  lemma ContentThenAttachment(c: string, t: string)
    requires c != [] && !IsSpace(c[0])
    requires t != [] && !IsSpace(t[|t| - 1])
    ensures ExtractGenieText(Message(Some(c), Some([Attachment(Some("text"), Some(t))])))
         == c + "\n" + t
  {
    var a := Attachment(Some("text"), Some(t));
    var m := Message(Some(c), Some([a]));
    assert AttachmentTexts([a]) == [t] + AttachmentTexts([]);
    assert Lines([t]) == t + "\n" + Lines([]);
    var body := c + "\n" + t;
    assert CollectText(m) == body + "\n";
    assert body[0] == c[0] && body[|body| - 1] == t[|t| - 1];
    assert AllSpace("\n");
    StripAppendSpace(body, "\n");
    StripOfTrimmed(body);
  }

  /** The sales tool consults the backend only about the sales space and the
      question as given: backends that agree there give the same answer. */
  lemma SalesToolAsksSalesSpace(
    ask1: (string, string) -> Message, ask2: (string, string) -> Message, spaces: SpaceIds, question: string)
    requires ask1(spaces.sales, question) == ask2(spaces.sales, question)
    ensures QuerySalesGenie(ask1, spaces, question) == QuerySalesGenie(ask2, spaces, question)
  {
  }

  /** The customer tool consults the backend only about the customer space
      and the question as given. */
  lemma CustomerToolAsksCustomerSpace(
    ask1: (string, string) -> Message, ask2: (string, string) -> Message, spaces: SpaceIds, question: string)
    requires ask1(spaces.customer, question) == ask2(spaces.customer, question)
    ensures QueryCustomerGenie(ask1, spaces, question) == QueryCustomerGenie(ask2, spaces, question)
  {
  }

  /** The two tools differ only in the space they ask. */
  lemma ToolsDifferOnlyInSpace(ask: (string, string) -> Message, spaces: SpaceIds, question: string)
    ensures QueryCustomerGenie(ask, spaces, question)
         == QuerySalesGenie(ask, SpaceIds(spaces.customer, spaces.sales), question)
  {
  }
}

=== FILE: router.dfy ===
/** The query router of coordinator_agent.py: `process_query` decides, from
    the question text alone, which domain agents get a task and what each
    task says. Running the tasks (the crew and the language model) is not
    part of this module. */
module Router {
  import opened Text

  /** The two domain agents; an agent is identified with its domain. */
  datatype Domain = Sales | Customer

  /** A task handed to one agent. */
  datatype Task = Task(domain: Domain, description: string, expectedOutput: string)

  /** What `process_query` hands to the crew: the agents to use and the
      ordered task list. */
  datatype CrewPlan = CrewPlan(agents: set<Domain>, tasks: seq<Task>)

  /** The protocol instruction appended to every task description. */
  const GenieInstruction: string :=
    "\nIMPORTANT: When you use **Query Sales Genie** or **Query Customer Genie**, \n"
    + "pass the question **as a plain string** inside JSON **exactly** like this:\n\n"
    + "```json\n{\"question\": \"What were Q3 sales by customer segment?\"}\n"
    + "Never include description, type, or any other fields.\n"

  /** The schema columns each domain is recognised by. "region" is in both. */
  const SalesColumns: set<string> := {"date", "product", "category", "revenue", "region"}
  const CustomerColumns: set<string> := {"customer_id", "segment", "lifetime_value", "churn_risk", "region"}

  function Columns(d: Domain): set<string> {
    match d
    case Sales => SalesColumns
    case Customer => CustomerColumns
  }

  /** The domain is relevant to the question: one of its columns occurs,
      as a contiguous run, in the lower-cased question. */
  ghost predicate Mentions(query: string, d: Domain) {
    exists col :: col in Columns(d) && IsSubstring(col, Lower(query))
  }

  /** `any(col in query_lower for col in COLUMNS)` for the domain's columns. */
  function Involves(queryLower: string, d: Domain): (r: bool)
    ensures r <==> exists col :: col in Columns(d) && IsSubstring(col, queryLower)
  {
    exists col :: col in Columns(d) && Contains(queryLower, col)
  }

  // ---------------------------------------------------------------------------
  // Task templates
  // ---------------------------------------------------------------------------

  /** The fixed wording of the four task templates. */
  const SalesDirectPrefix: string := "Answer this sales-related question: "
  const CustomerDirectPrefix: string := "Answer this customer-related question: "
  const SalesFallbackPrefix: string := "Analyze this query from a sales perspective: "
  const CustomerFallbackPrefix: string := "Analyze this query from a customer perspective: "
  const SalesDirectOutput: string := "Detailed sales insights based on the query"
  const CustomerDirectOutput: string := "Detailed customer insights based on the query"
  const SalesFallbackOutput: string := "Sales-related insights if applicable"
  const CustomerFallbackOutput: string := "Customer-related insights if applicable"

  function DirectPrefix(d: Domain): string {
    match d
    case Sales => SalesDirectPrefix
    case Customer => CustomerDirectPrefix
  }

  function FallbackPrefix(d: Domain): string {
    match d
    case Sales => SalesFallbackPrefix
    case Customer => CustomerFallbackPrefix
  }

  /** The task for a domain whose columns the question mentions. */
  function DirectTask(d: Domain, query: string): Task {
    Task(d, DirectPrefix(d) + query + "\n" + GenieInstruction,
         match d
         case Sales => SalesDirectOutput
         case Customer => CustomerDirectOutput)
  }

  /** The task for a domain when the question mentions no columns at all. */
  function FallbackTask(d: Domain, query: string): Task {
    Task(d, FallbackPrefix(d) + query + "\n" + GenieInstruction,
         match d
         case Sales => SalesFallbackOutput
         case Customer => CustomerFallbackOutput)
  }

  /** The description is the direct-match template around `query`. */
  ghost predicate IsDirectFor(t: Task, query: string) {
    t.description == DirectPrefix(t.domain) + query + "\n" + GenieInstruction
  }

  /** The description is the fallback template around `query`. */
  ghost predicate IsFallbackFor(t: Task, query: string) {
    t.description == FallbackPrefix(t.domain) + query + "\n" + GenieInstruction
  }

  /** The agents the tasks are assigned to. */
  ghost function DomainsOf(tasks: seq<Task>): set<Domain> {
    set t | t in tasks :: t.domain
  }

  // ---------------------------------------------------------------------------
  // process_query
  // ---------------------------------------------------------------------------

  /** The plan `process_query` builds before it creates the crew. */
  function ProcessQuery(query: string): (p: CrewPlan)
    ensures 1 <= |p.tasks| <= 2
    ensures p.agents == DomainsOf(p.tasks)
    // Sales comes first whenever both agents have a task.
    ensures forall i, j :: 0 <= i < j < |p.tasks| ==>
              p.tasks[i].domain == Sales && p.tasks[j].domain == Customer
    // With a column match, exactly the mentioned domains get a direct task.
    ensures Mentions(query, Sales) || Mentions(query, Customer) ==>
              && (Sales in p.agents <==> Mentions(query, Sales))
              && (Customer in p.agents <==> Mentions(query, Customer))
              && (forall i :: 0 <= i < |p.tasks| ==> IsDirectFor(p.tasks[i], query))
    // Without one, both domains get a fallback task.
    ensures !Mentions(query, Sales) && !Mentions(query, Customer) ==>
              && p.agents == {Sales, Customer}
              && (forall i :: 0 <= i < |p.tasks| ==> IsFallbackFor(p.tasks[i], query))
  {
    var queryLower := Lower(query);
    var involvesSales := Involves(queryLower, Sales);
    var involvesCustomer := Involves(queryLower, Customer);
    assert involvesSales == Mentions(query, Sales);
    assert involvesCustomer == Mentions(query, Customer);
    Assemble(query, involvesSales, involvesCustomer)
  }

  /** Lines 37-73 of `process_query`: the task list and agent set for the
      two relevance flags. */
  function Assemble(query: string, involvesSales: bool, involvesCustomer: bool): (p: CrewPlan)
    ensures 1 <= |p.tasks| <= 2
    ensures p.agents == DomainsOf(p.tasks)
    ensures forall i, j :: 0 <= i < j < |p.tasks| ==>
              p.tasks[i].domain == Sales && p.tasks[j].domain == Customer
    ensures involvesSales || involvesCustomer ==>
              && (Sales in p.agents <==> involvesSales)
              && (Customer in p.agents <==> involvesCustomer)
              && (forall i :: 0 <= i < |p.tasks| ==> IsDirectFor(p.tasks[i], query))
    ensures !involvesSales && !involvesCustomer ==>
              && p.agents == {Sales, Customer}
              && (forall i :: 0 <= i < |p.tasks| ==> IsFallbackFor(p.tasks[i], query))
  {
    var tasks :=
      (if involvesSales then [DirectTask(Sales, query)] else [])
      + (if involvesCustomer then [DirectTask(Customer, query)] else []);
    var agents :=
      (if involvesSales then {Sales} else {})
      + (if involvesCustomer then {Customer} else {});
    if tasks == [] then
      var fallback := [FallbackTask(Sales, query), FallbackTask(Customer, query)];
      assert DomainsOf(fallback) == {Sales, Customer} by {
        assert fallback[0].domain == Sales && fallback[1].domain == Customer;
      }
      CrewPlan({Sales, Customer}, fallback)
    else
      assert DomainsOf(tasks) == agents by {
        if involvesSales { assert tasks[0].domain == Sales; }
        if involvesCustomer { assert tasks[|tasks| - 1].domain == Customer; }
      }
      CrewPlan(agents, tasks)
  }
}

=== FILE: router_properties.dfy ===
/** Properties of the query router: what `process_query` promises about the
    agents it selects and the tasks it writes, over all questions. */
module RouterProperties {
  import opened Text
  import opened Router

  /** The fallback applies: the question mentions no column of either domain. */
  ghost predicate NoColumnMentioned(query: string) {
    !Mentions(query, Sales) && !Mentions(query, Customer)
  }

  /** A direct-match description and a fallback description never coincide:
      "Answer ..." and "Analyze ..." already differ at their third character. */
  lemma DirectIsNotFallback(t: Task, query: string)
    ensures !(IsDirectFor(t, query) && IsFallbackFor(t, query))
  {
    if IsDirectFor(t, query) {
      var rest := query + "\n" + GenieInstruction;
      var direct, fallback := DirectPrefix(t.domain), FallbackPrefix(t.domain);
      assert direct[2] == 's' && fallback[2] == 'a' by {
        match t.domain
        case Sales =>
          assert SalesDirectPrefix[2] == 's' && SalesFallbackPrefix[2] == 'a';
        case Customer =>
          assert CustomerDirectPrefix[2] == 's' && CustomerFallbackPrefix[2] == 'a';
      }
      assert (direct + rest)[2] == direct[2];
      assert (fallback + rest)[2] == fallback[2];
    }
  }

  /** Each domain gets a task exactly when it is mentioned or when neither is;
      it gets a direct-match task exactly when it is mentioned. */
  lemma DomainSelectedIff(query: string, d: Domain)
    ensures d in ProcessQuery(query).agents <==> Mentions(query, d) || NoColumnMentioned(query)
    ensures (exists i :: 0 <= i < |ProcessQuery(query).tasks|
               && ProcessQuery(query).tasks[i].domain == d
               && IsDirectFor(ProcessQuery(query).tasks[i], query))
            <==> Mentions(query, d)
  {
    var p := ProcessQuery(query);
    if Mentions(query, d) {
      assert d in DomainsOf(p.tasks);
      var t :| t in p.tasks && t.domain == d;
      var i :| 0 <= i < |p.tasks| && p.tasks[i] == t;
      assert IsDirectFor(p.tasks[i], query);
    }
    if NoColumnMentioned(query) {
      forall i | 0 <= i < |p.tasks|
        ensures !IsDirectFor(p.tasks[i], query)
      {
        DirectIsNotFallback(p.tasks[i], query);
      }
    }
    if !Mentions(query, d) && !NoColumnMentioned(query) {
      forall i | 0 <= i < |p.tasks|
        ensures p.tasks[i].domain != d
      {
        assert p.tasks[i] in p.tasks;
      }
    }
  }

  /** A question mentioning "region" selects both agents, Sales first, each
      with a direct-match task, because "region" is a column of both. */
  lemma RegionSelectsBoth(query: string)
    requires IsSubstring("region", Lower(query))
    ensures ProcessQuery(query).agents == {Sales, Customer}
    ensures ProcessQuery(query).tasks == [DirectTask(Sales, query), DirectTask(Customer, query)]
  {
    assert "region" in Columns(Sales) && "region" in Columns(Customer);
    assert Mentions(query, Sales) && Mentions(query, Customer);
    BothMentioned(query);
  }

  /** A question that mentions only sales columns yields the one sales task. */
  lemma SalesOnly(query: string)
    requires Mentions(query, Sales) && !Mentions(query, Customer)
    ensures ProcessQuery(query).agents == {Sales}
    ensures ProcessQuery(query).tasks ==
              [Task(Sales,
                    "Answer this sales-related question: " + query + "\n" + GenieInstruction,
                    "Detailed sales insights based on the query")]
  {
  }

  /** A question that mentions only customer columns yields the one customer
      task. */
  lemma CustomerOnly(query: string)
    requires Mentions(query, Customer) && !Mentions(query, Sales)
    ensures ProcessQuery(query).agents == {Customer}
    ensures ProcessQuery(query).tasks ==
              [Task(Customer,
                    "Answer this customer-related question: " + query + "\n" + GenieInstruction,
                    "Detailed customer insights based on the query")]
  {
  }

  /** A question that mentions columns of both domains yields a sales task
      followed by a customer task. */
  lemma BothMentioned(query: string)
    requires Mentions(query, Sales) && Mentions(query, Customer)
    ensures ProcessQuery(query).agents == {Sales, Customer}
    ensures ProcessQuery(query).tasks == [DirectTask(Sales, query), DirectTask(Customer, query)]
  {
  }

  /** A question that mentions no column gets both fallback tasks, Sales
      first. */
  lemma NoMatchAsksBoth(query: string)
    requires NoColumnMentioned(query)
    ensures ProcessQuery(query).agents == {Sales, Customer}
    ensures ProcessQuery(query).tasks ==
              [Task(Sales,
                    "Analyze this query from a sales perspective: " + query + "\n" + GenieInstruction,
                    "Sales-related insights if applicable"),
               Task(Customer,
                    "Analyze this query from a customer perspective: " + query + "\n" + GenieInstruction,
                    "Customer-related insights if applicable")]
  {
  }

  /** A column name is never found in a string shorter than itself. */
  lemma NotInShorter(col: string, s: string)
    requires |s| < |col|
    ensures !IsSubstring(col, s)
  {
  }

  /** The empty question mentions no column, so both agents are asked. */
  lemma EmptyQueryAsksBoth()
    ensures ProcessQuery("").agents == {Sales, Customer}
    ensures ProcessQuery("").tasks == [FallbackTask(Sales, ""), FallbackTask(Customer, "")]
  {
    assert Lower("") == "";
    forall col | col in SalesColumns + CustomerColumns
      ensures !IsSubstring(col, "")
    {
      NotInShorter(col, "");
    }
  }

  /** A question of whitespace only mentions no column, so both agents are
      asked: every column starts with a character that is not whitespace. */
  lemma WhitespaceQueryAsksBoth(query: string)
    requires AllSpace(query)
    ensures ProcessQuery(query).agents == {Sales, Customer}
    ensures ProcessQuery(query).tasks == [FallbackTask(Sales, query), FallbackTask(Customer, query)]
  {
    forall col | col in SalesColumns + CustomerColumns
      ensures !IsSubstring(col, Lower(query))
    {
      assert col != [] && !IsSpace(col[0]);
      forall j | 0 <= j < |Lower(query)|
        ensures Lower(query)[j] != col[0]
      {
        assert Lower(query)[j] == LowerChar(query[j]);
      }
      MissingCharNotFound(col, Lower(query), col[0]);
    }
    NoMatchAsksBoth(query);
  }

  /** The fallback wording is used exactly when no column is mentioned;
      direct-match tasks never carry it. */
  lemma FallbackWordingIff(query: string)
    ensures forall i :: 0 <= i < |ProcessQuery(query).tasks| ==>
              (IsFallbackFor(ProcessQuery(query).tasks[i], query) <==> NoColumnMentioned(query))
  {
    var p := ProcessQuery(query);
    forall i | 0 <= i < |p.tasks|
      ensures IsFallbackFor(p.tasks[i], query) <==> NoColumnMentioned(query)
    {
      DirectIsNotFallback(p.tasks[i], query);
    }
  }

  /** Two questions that differ only in letter case mention the same
      domains. */
  lemma CaseVariantsMentionAlike(q1: string, q2: string, d: Domain)
    requires EqualIgnoringCase(q1, q2)
    ensures Mentions(q1, d) <==> Mentions(q2, d)
  {
    LowerIdentifiesCaseVariants(q1, q2);
  }

  /** Two plans for two questions assign the same agents, in the same order,
      with the same template (direct-match or fallback) for each, every
      description built around its own question. */
  ghost predicate SameShape(p1: CrewPlan, q1: string, p2: CrewPlan, q2: string) {
    && p1.agents == p2.agents
    && |p1.tasks| == |p2.tasks|
    && forall i :: 0 <= i < |p1.tasks| ==>
         && p1.tasks[i].domain == p2.tasks[i].domain
         && (IsDirectFor(p1.tasks[i], q1) <==> IsDirectFor(p2.tasks[i], q2))
         && (IsFallbackFor(p1.tasks[i], q1) <==> IsFallbackFor(p2.tasks[i], q2))
  }

  /** Selection depends only on the lower-cased question: two questions that
      differ only in letter case select the same agents in the same order,
      with the same template, while each description keeps its own question. */
  lemma CaseVariantsSelectAlike(q1: string, q2: string)
    requires EqualIgnoringCase(q1, q2)
    ensures SameShape(ProcessQuery(q1), q1, ProcessQuery(q2), q2)
  {
    CaseVariantsMentionAlike(q1, q2, Sales);
    CaseVariantsMentionAlike(q1, q2, Customer);
    var s, c := Mentions(q1, Sales), Mentions(q1, Customer);
    assert ProcessQuery(q1) == Assemble(q1, s, c);
    assert ProcessQuery(q2) == Assemble(q2, s, c);
    if s || c {
      DirectShapesAlike(q1, q2, s, c);
    } else {
      FallbackShapesAlike(q1, q2);
    }
  }

  /** Helper for `CaseVariantsSelectAlike`: the fallback plans of any two
      questions have the same shape. */
  lemma FallbackShapesAlike(q1: string, q2: string)
    ensures SameShape(Assemble(q1, false, false), q1, Assemble(q2, false, false), q2)
  {
    var p1, p2 := Assemble(q1, false, false), Assemble(q2, false, false);
    assert p1.tasks == [FallbackTask(Sales, q1), FallbackTask(Customer, q1)];
    assert p2.tasks == [FallbackTask(Sales, q2), FallbackTask(Customer, q2)];
    DirectIsNotFallback(FallbackTask(Sales, q1), q1);
    DirectIsNotFallback(FallbackTask(Customer, q1), q1);
    DirectIsNotFallback(FallbackTask(Sales, q2), q2);
    DirectIsNotFallback(FallbackTask(Customer, q2), q2);
  }

  /** Helper for `CaseVariantsSelectAlike`: with the same relevance flags, at
      least one of them set, two questions' plans have the same shape. */
  lemma DirectShapesAlike(q1: string, q2: string, s: bool, c: bool)
    requires s || c
    ensures SameShape(Assemble(q1, s, c), q1, Assemble(q2, s, c), q2)
  {
    if s && c {
      BothShapesAlike(q1, q2);
    } else {
      SingleShapesAlike(q1, q2, if s then Sales else Customer);
    }
  }

  /** Helper for `DirectShapesAlike`: both domains mentioned. */
  lemma BothShapesAlike(q1: string, q2: string)
    ensures SameShape(Assemble(q1, true, true), q1, Assemble(q2, true, true), q2)
  {
    assert Assemble(q1, true, true).tasks == [DirectTask(Sales, q1), DirectTask(Customer, q1)];
    assert Assemble(q2, true, true).tasks == [DirectTask(Sales, q2), DirectTask(Customer, q2)];
    DirectIsNotFallback(DirectTask(Sales, q1), q1);
    DirectIsNotFallback(DirectTask(Customer, q1), q1);
    DirectIsNotFallback(DirectTask(Sales, q2), q2);
    DirectIsNotFallback(DirectTask(Customer, q2), q2);
  }

  /** Helper for `DirectShapesAlike`: only domain `d` mentioned. */
  lemma SingleShapesAlike(q1: string, q2: string, d: Domain)
    ensures SameShape(Assemble(q1, d == Sales, d == Customer), q1,
                      Assemble(q2, d == Sales, d == Customer), q2)
  {
    assert Assemble(q1, d == Sales, d == Customer).tasks == [DirectTask(d, q1)];
    assert Assemble(q2, d == Sales, d == Customer).tasks == [DirectTask(d, q2)];
    DirectIsNotFallback(DirectTask(d, q1), q1);
    DirectIsNotFallback(DirectTask(d, q2), q2);
  }

  /** A lower-case word found in a question is found at the same place in the
      lower-cased question. */
  lemma LowerKeepsLowercaseWord(k: string, s: string, i: int)
    requires OccursAt(k, s, i)
    requires forall j :: 0 <= j < |k| ==> !IsUpper(k[j])
    ensures OccursAt(k, Lower(s), i)
  {
    forall j | 0 <= j < |k|
      ensures Lower(s)[i + j] == k[j]
    {
      assert s[i + j] == s[i..i + |k|][j];
    }
  }

  /** Matching is containment, not word matching: "update" contains "date". */
  lemma UpdateMentionsDate()
    ensures Sales in ProcessQuery("update").agents
    ensures ProcessQuery("update").tasks[0] == DirectTask(Sales, "update")
  {
    assert "update"[2..6] == "date";
    LowerKeepsLowercaseWord("date", "update", 2);
    assert "date" in Columns(Sales);
  }

  /** "productivity" contains "product", so it selects the sales agent. */
  lemma ProductivityMentionsProduct()
    ensures Sales in ProcessQuery("productivity").agents
    ensures ProcessQuery("productivity").tasks[0] == DirectTask(Sales, "productivity")
  {
    assert "productivity"[0..7] == "product";
    LowerKeepsLowercaseWord("product", "productivity", 0);
    assert "product" in Columns(Sales);
  }

  /** A word holding a character that the text lacks does not occur in it. */
  lemma MissingCharNotFound(k: string, s: string, c: char)
    requires c in k
    requires forall j :: 0 <= j < |s| ==> s[j] != c
    ensures !IsSubstring(k, s)
  {
    var m :| 0 <= m < |k| && k[m] == c;
    forall i
      ensures !OccursAt(k, s, i)
    {
      if 0 <= i && i + |k| <= |s| {
        assert s[i..i + |k|][m] == s[i + m] != c;
      }
    }
  }

  /** Lower-casing keeps out a lower-case letter whose two cases are both
      absent. */
  lemma LowerKeepsLetterOut(s: string, c: char)
    requires 'a' <= c <= 'z'
    requires forall j :: 0 <= j < |s| ==> s[j] != c && s[j] != (c as int - 32) as char
    ensures forall j :: 0 <= j < |Lower(s)| ==> Lower(s)[j] != c
  {
    forall j | 0 <= j < |Lower(s)|
      ensures Lower(s)[j] != c
    {
      assert Lower(s)[j] == LowerChar(s[j]);
    }
  }

  /** A text without the letters d, p, o and v mentions no sales column:
      each sales column holds one of them. */
  lemma NoSalesColumnWithout(l: string)
    requires forall j :: 0 <= j < |l| ==> l[j] != 'd' && l[j] != 'p' && l[j] != 'o' && l[j] != 'v'
    ensures forall col :: col in SalesColumns ==> !IsSubstring(col, l)
  {
    forall col | col in SalesColumns
      ensures !IsSubstring(col, l)
    {
      var c := if col == "date" then 'd' else if col == "product" then 'p'
               else if col == "revenue" then 'v' else 'o';
      assert c in col;
      MissingCharNotFound(col, l, c);
    }
  }

  /** The customer example question of the user interface. */
  const SegmentQuery: string := "Which segment has highest churn?"

  /** The customer example holds neither case of d, p, o or v. */
  lemma SegmentQueryLetters()
    ensures forall j :: 0 <= j < |SegmentQuery| ==>
              && SegmentQuery[j] != 'd' && SegmentQuery[j] != 'D'
              && SegmentQuery[j] != 'p' && SegmentQuery[j] != 'P'
              && SegmentQuery[j] != 'o' && SegmentQuery[j] != 'O'
              && SegmentQuery[j] != 'v' && SegmentQuery[j] != 'V'
  {
  }

  /** The customer example mentions the customer column "segment". */
  lemma SegmentQueryMentionsCustomer()
    ensures Mentions(SegmentQuery, Customer)
  {
    SegmentAtSix();
    LowerKeepsLowercaseWord("segment", SegmentQuery, 6);
    assert "segment" in Columns(Customer);
  }

  /** "segment" is the second word of the customer example. */
  lemma SegmentAtSix()
    ensures OccursAt("segment", SegmentQuery, 6)
  {
    var q := SegmentQuery;
    assert q[6] == 's' && q[7] == 'e' && q[8] == 'g' && q[9] == 'm'
        && q[10] == 'e' && q[11] == 'n' && q[12] == 't';
    assert q[6..13] == "segment";
  }

  /** The customer example mentions no sales column. */
  lemma SegmentQueryMentionsNoSales()
    ensures !Mentions(SegmentQuery, Sales)
  {
    SegmentQueryLetters();
    LowerKeepsLetterOut(SegmentQuery, 'd');
    LowerKeepsLetterOut(SegmentQuery, 'p');
    LowerKeepsLetterOut(SegmentQuery, 'o');
    LowerKeepsLetterOut(SegmentQuery, 'v');
    NoSalesColumnWithout(Lower(SegmentQuery));
  }

  /** The customer example asks the customer agent alone: it contains
      "segment", while "churn" alone is not the column "churn_risk" and no
      sales column occurs in it. */
  lemma SegmentQueryAsksCustomer()
    ensures ProcessQuery(SegmentQuery).agents == {Customer}
    ensures ProcessQuery(SegmentQuery).tasks == [DirectTask(Customer, SegmentQuery)]
  {
    SegmentQueryMentionsCustomer();
    SegmentQueryMentionsNoSales();
    CustomerOnly(SegmentQuery);
  }

  /** The sales example question of the user interface asks both agents. */
  lemma SalesByRegionAsksBoth()
    ensures ProcessQuery("What were Q3 sales by region?").agents == {Sales, Customer}
  {
    var q := "What were Q3 sales by region?";
    assert q[22..28] == "region";
    LowerKeepsLowercaseWord("region", q, 22);
    RegionSelectsBoth(q);
  }
}

=== FILE: text.dfy ===
/** String helpers with the meaning the Python standard library gives them,
    restricted to ASCII: `str.lower()`, `k in s` on strings and `str.strip()`. */
module Text {

  // ---------------------------------------------------------------------------
  // Lower-casing
  // ---------------------------------------------------------------------------

  predicate IsUpper(c: char) {
    'A' <= c <= 'Z'
  }

  /** The ASCII part of Python's `str.lower()` on one character. */
  function LowerChar(c: char): char {
    if IsUpper(c) then (c as int + 32) as char else c
  }

  /** `s.lower()`: every character lower-cased, nothing else changed. */
  function Lower(s: string): (r: string)
    ensures |r| == |s|
    ensures forall i :: 0 <= i < |s| ==> r[i] == LowerChar(s[i])
  {
    if s == [] then [] else [LowerChar(s[0])] + Lower(s[1..])
  }

  /** Two characters are the same letter up to ASCII case (or simply equal). */
  ghost predicate SameIgnoringCase(a: char, b: char) {
    || a == b
    || (IsUpper(a) && b as int == a as int + 32)
    || (IsUpper(b) && a as int == b as int + 32)
  }

  /** Two strings that differ only in the ASCII case of their letters. */
  ghost predicate EqualIgnoringCase(s: string, t: string) {
    |s| == |t| && forall i :: 0 <= i < |s| ==> SameIgnoringCase(s[i], t[i])
  }

  /** Lower-casing identifies exactly the strings that differ only in case. */
  lemma LowerIdentifiesCaseVariants(s: string, t: string)
    ensures EqualIgnoringCase(s, t) <==> Lower(s) == Lower(t)
  {
    if EqualIgnoringCase(s, t) {
      assert forall i :: 0 <= i < |s| ==> Lower(s)[i] == Lower(t)[i];
    }
    if Lower(s) == Lower(t) {
      forall i | 0 <= i < |s|
        ensures SameIgnoringCase(s[i], t[i])
      {
        assert LowerChar(s[i]) == LowerChar(t[i]);
      }
    }
  }

  // ---------------------------------------------------------------------------
  // Substring containment
  // ---------------------------------------------------------------------------

  /** `k` occurs in `s` starting at index `i`. */
  ghost predicate OccursAt(k: string, s: string, i: int) {
    0 <= i && i + |k| <= |s| && s[i..i + |k|] == k
  }

  /** `k` is a contiguous run of characters of `s`. */
  ghost predicate IsSubstring(k: string, s: string) {
    exists i :: OccursAt(k, s, i)
  }

  /** An occurrence in `s` either starts at its first character or lies in
      its tail. */
  lemma OccurrenceSplit(k: string, s: string)
    requires s != []
    ensures IsSubstring(k, s) <==> OccursAt(k, s, 0) || IsSubstring(k, s[1..])
  {
    if IsSubstring(k, s) {
      var i :| OccursAt(k, s, i);
      if i > 0 {
        assert s[1..][i - 1..i - 1 + |k|] == s[i..i + |k|];
        assert OccursAt(k, s[1..], i - 1);
      }
    }
    if IsSubstring(k, s[1..]) {
      var i :| OccursAt(k, s[1..], i);
      assert s[i + 1..i + 1 + |k|] == s[1..][i..i + |k|];
      assert OccursAt(k, s, i + 1);
    }
  }

  /** Python's `k in s` for strings: plain containment, no word boundaries. */
  function Contains(s: string, k: string): (r: bool)
    ensures r <==> IsSubstring(k, s)
  {
    if |k| > |s| then
      assert forall i :: !OccursAt(k, s, i);
      false
    else if s[..|k|] == k then
      assert OccursAt(k, s, 0);
      true
    else
      OccurrenceSplit(k, s);
      Contains(s[1..], k)
  }

  // ---------------------------------------------------------------------------
  // Stripping whitespace
  // ---------------------------------------------------------------------------

  /** The ASCII characters Python's `str.isspace()` accepts: tab, line feed,
      vertical tab, form feed, carriage return (9..13), the four information
      separators (28..31) and space (32). */
  predicate IsSpace(c: char) {
    (9 <= c as int <= 13) || (28 <= c as int <= 32)
  }

  ghost predicate AllSpace(s: string) {
    forall i :: 0 <= i < |s| ==> IsSpace(s[i])
  }

  /** Neither end of `s` is whitespace. */
  ghost predicate Trimmed(s: string) {
    s == [] || (!IsSpace(s[0]) && !IsSpace(s[|s| - 1]))
  }

  /** `r` sits at index `i` of `s` with only whitespace around it. */
  ghost predicate StrippedAt(r: string, s: string, i: int) {
    && 0 <= i && i + |r| <= |s|
    && (forall j :: 0 <= j < |r| ==> s[i + j] == r[j])
    && (forall j :: 0 <= j < i ==> IsSpace(s[j]))
    && (forall j :: i + |r| <= j < |s| ==> IsSpace(s[j]))
  }

  /** `r` is what remains of `s` once its whitespace ends are cut away. */
  ghost predicate IsStripOf(r: string, s: string) {
    Trimmed(r) && exists i :: StrippedAt(r, s, i)
  }

  /** Drops leading whitespace: what is left is a suffix of `s` that does
      not start with whitespace, and all that was dropped is whitespace. */
  function StripLeft(s: string): (r: string)
    ensures |r| <= |s| && r == s[|s| - |r|..]
    ensures AllSpace(s[..|s| - |r|])
    ensures r == [] || !IsSpace(r[0])
  {
    if s != [] && IsSpace(s[0]) then
      var t := s[1..];
      var r := StripLeft(t);
      assert s[..|s| - |r|] == [s[0]] + t[..|t| - |r|];
      r
    else s
  }

  /** Drops trailing whitespace: what is left is a prefix of `s` that does
      not end with whitespace, and all that was dropped is whitespace. */
  function StripRight(s: string): (r: string)
    ensures |r| <= |s| && r == s[..|r|]
    ensures AllSpace(s[|r|..])
    ensures r == [] || !IsSpace(r[|r| - 1])
  {
    if s != [] && IsSpace(s[|s| - 1]) then
      var t := s[..|s| - 1];
      var r := StripRight(t);
      assert s[|r|..] == t[|r|..] + [s[|s| - 1]];
      r
    else s
  }

  /** Python's `s.strip()` with no argument. */
  function Strip(s: string): (r: string)
    ensures IsStripOf(r, s)
    ensures r == [] <==> AllSpace(s)
  {
    var l := StripLeft(s);
    var r := StripRight(l);
    StripBothEnds(s, l, r);
    r
  }

  /** Helper for `Strip`: a whitespace-free-headed suffix `l` of `s` after
      whitespace, cut down to a whitespace-free-ended prefix `r` before
      whitespace, is a strip of `s`, empty exactly when `s` is all
      whitespace. */
  lemma StripBothEnds(s: string, l: string, r: string)
    requires |l| <= |s| && l == s[|s| - |l|..] && AllSpace(s[..|s| - |l|])
    requires l == [] || !IsSpace(l[0])
    requires |r| <= |l| && r == l[..|r|] && AllSpace(l[|r|..])
    requires r == [] || !IsSpace(r[|r| - 1])
    ensures StrippedAt(r, s, |s| - |l|)
    ensures Trimmed(r)
    ensures r == [] <==> AllSpace(s)
  {
    var i := |s| - |l|;
    forall j | 0 <= j < |r|
      ensures s[i + j] == r[j]
    {
      assert r[j] == l[j] == s[i + j];
    }
    forall j | 0 <= j < i
      ensures IsSpace(s[j])
    {
      assert s[j] == s[..i][j];
    }
    forall j | i + |r| <= j < |s|
      ensures IsSpace(s[j])
    {
      assert s[j] == l[j - i] == l[|r|..][j - i - |r|];
    }
    if r != [] {
      assert r[0] == l[0];
    }
    if l != [] {
      assert s[i] == l[0];
    }
  }

  /** A string has at most one strip: the margins being whitespace and the
      ends not being whitespace pins the kept part down. */
  lemma StripUnique(r1: string, r2: string, s: string)
    requires IsStripOf(r1, s) && IsStripOf(r2, s)
    ensures r1 == r2
  {
    var i1 :| StrippedAt(r1, s, i1);
    var i2 :| StrippedAt(r2, s, i2);
    StripEndsMatch(r1, r2, s, i1, i2);
    StripEndsMatch(r2, r1, s, i2, i1);
    if r1 != [] {
      assert forall j :: 0 <= j < |r1| ==> r1[j] == s[i1 + j] == r2[j];
    }
  }

  /** Helper for `StripUnique`: a non-empty strip cannot start later, or end
      earlier, than another strip of the same string. */
  lemma StripEndsMatch(r1: string, r2: string, s: string, i1: int, i2: int)
    requires Trimmed(r1) && Trimmed(r2)
    requires StrippedAt(r1, s, i1) && StrippedAt(r2, s, i2)
    ensures r1 != [] ==> r2 != [] && i2 <= i1 && i1 + |r1| <= i2 + |r2|
  {
    if r1 != [] {
      assert s[i1 + 0] == r1[0];
      assert s[i1 + (|r1| - 1)] == r1[|r1| - 1];
    }
  }

  /** Appending whitespace does not change the strip. */
  lemma StripAppendSpace(s: string, w: string)
    requires AllSpace(w)
    ensures Strip(s + w) == Strip(s)
  {
    var r := Strip(s);
    var i :| StrippedAt(r, s, i);
    StrippedAtAppend(r, s, w, i);
    StripUnique(r, Strip(s + w), s + w);
  }

  /** Helper for `StripAppendSpace`: appended whitespace joins the right
      margin. */
  lemma StrippedAtAppend(r: string, s: string, w: string, i: int)
    requires AllSpace(w) && StrippedAt(r, s, i)
    ensures StrippedAt(r, s + w, i)
  {
    forall j | i + |r| <= j < |s + w|
      ensures IsSpace((s + w)[j])
    {
      if j >= |s| {
        assert (s + w)[j] == w[j - |s|];
      }
    }
  }
}

=== FILE: wrappers.dfy ===
/** Optional values: the model's stand-in for a Python attribute that may be
    missing or `None`. */
module Wrappers {

  datatype Option<+T> = None | Some(value: T) {

    /** The value, or `default` when there is none (Python's `x or default`
        for a value that is either present or `None`). */
    function GetOr(default: T): T
    {
      match this
      case Some(v) => v
      case None => default
    }
  }
}
